=== FILE: README.md ===
# Aircraft scanner: tracking and loitering-event correlation

This project is a Dafny model of the core of the medplane aircraft scanner, the
`AircraftScanner` class in `src/scanner.ts`. The scanner keeps two stores.
The aircraft registry maps an ICAO code to an aircraft record: its callsign, its
newest-first track of position samples, and three flags set by an external
analyzer. The loitering event store maps an ICAO code to a correlated loitering
event. Each scan cycle folds the position source's batch through
`updateAircraft`. That call offers the sample to the track, asks the analyzer for
a verdict and, on a loitering verdict, creates or refreshes the aircraft's event.
Then `cleanupInactiveAircraft` evicts every aircraft whose newest sample is more
than five minutes old, together with its event.

The model is functional: the stores are immutable maps and every operation
returns a new store.

- `types.dfy` (`Types`): samples, reports, aircraft records, analyzer verdicts,
  events, the store and the scanner invariant `Valid`.
- `track.dfy` (`Track`): the bounded, deduplicating track buffer.
- `event_store.dfy` (`EventStore`): the event store operations and the
  correlation policy, `HandleLoiteringDetection`.
- `registry.dfy` (`Registry`): `UpdateAircraft`.
- `reaper.dfy` (`Reaper`): the inactivity sweep. It is modelled twice: the loop
  the scanner runs, and a declarative definition proved equal to it.
- `scanner.dfy` (`Scanner`): the batch fold, one scan, one cycle (scan then
  sweep) and a run of cycles. Notifications form an output trace.
- `scenarios.dfy` (`Scenarios`): two concrete end-to-end runs.

Things that come from outside the model are parameters:
- `Date.now()` is a clock indexed by the report's position in the batch, plus a
  separate sweep time.
- The analyzer is any function from a record to a verdict.
- The position source's answer is a `ProviderResult`: a batch or a failure.

The event store's module is not part of this model. It is modelled as a map
keyed by event id, where lookup by aircraft uses the ICAO code as the key. The
invariant `WellKeyed` says every event's id and code equal its key. It holds
from the empty store onward, and contracts that rely on it say so (`WellKeyed(..) ==> ..`).

Where the code and the scanner's design description disagree, the model follows the code:
- The code emits each `loiteringAircraft` notification inside the batch fold,
  so every one of them comes BEFORE the `scan` notification. The design
  description puts `scan` first, followed by the loitering notifications.
  `Scanner.Scan` proves the code's order.
- The design description says an event exists iff its aircraft is tracked
  and has been flagged loitering since it was last evicted. The code keeps both
  directions: every loitering verdict creates or refreshes an event (the track
  is never empty after an update), and events are deleted only together with
  their aircraft. Events are not removed when loitering stops. The model proves
  two parts of this in `Valid`: every event has a tracked aircraft, and every
  aircraft currently flagged loitering has an event.
- The event's callsign is a snapshot taken when the event is created. Later
  detections never refresh it.

## Model

| member | source | states |
|---|---|---|
| Track.Append | src/scanner.ts:100-111 | The track changes iff the sample differs from the head on latitude, longitude, altitude, speed, heading or vertical rate (or the track is empty). The timestamp is ignored. When the track changes, the sample becomes the head and the rest is a prefix of the old track, truncated to 50. Either way the head afterwards matches the sample on the six fields. A track within 50 stays within 50. |
| Track.AppendAllMoving | src/scanner.ts:100-111 | Offering samples that each differ from the one before, starting on a bounded track whose head the first differs from, yields the samples newest-first on top of the old track, truncated to 50. |
| Track.MovingSamplesFromEmpty | src/scanner.ts:100-111 | From an empty track, N samples that each differ from the one before leave min(N, 50) samples, newest first, with the last sample at index 0. |
| EventStore.HandleLoiteringDetection | src/scanner.ts:132-189 | With an existing event: the count rises by one and `lastUpdated` becomes now. `firstDetected`, id, code, callsign and intersection points stay. The track becomes the aircraft's track, and the state is refreshed from the head only when the track is non-empty. Without an event: a new event is saved under the aircraft's code with count 1, first and last detection at now, no intersection points, the state of `track[0]` and a copy of the track. An empty track creates nothing. Other events are untouched, and a well-keyed store stays well keyed. |
| EventStore.DetectionLeavesEvent | src/scanner.ts:132-187 | In a well-keyed store, after a detection the aircraft holds an event stamped now with its track, and exactly that key is added to the store. The exception is an aircraft with no event and no sample. |
| EventStore.TwoDetections | src/scanner.ts:137-184 | Two detections in a row starting from no event give a count of 2, `firstDetected` from the first, `lastUpdated` from the second, and the callsign from the first. |
| Registry.UpdateAircraft | src/scanner.ts:92-126 | The registry's keys gain exactly the report's code, and no other record changes. An unseen code gets exactly the reported sample as its track. A seen code has the sample offered to its track. The callsign is always overwritten. The three flags are the analyzer's verdict on the record as it was just before they were written. A non-loitering verdict leaves the event store alone and announces nothing. A loitering verdict runs the correlation and announces the record. |
| Registry.UpdateKeepsValid | src/scanner.ts:92-126 | One update keeps the scanner invariant. Records sit under their own code, tracks hold at most 50 samples, events are well keyed, every event's code is tracked, and every aircraft flagged loitering has an event. Afterwards the updated track is non-empty, and a loitering aircraft holds an event. |
| Registry.RegistrySize | src/scanner.ts:92-98 | An unseen code grows the registry by exactly one record; a seen code leaves its size unchanged. |
| Registry.TimestampOnlyKeepsTrack | src/scanner.ts:100-111 | A report that repeats the head's six compared fields with a different timestamp leaves the track unchanged. |
| Reaper.Latest | src/scanner.ts:42 | An aircraft's latest time is 0 for an empty track, and otherwise the head's timestamp in seconds times 1000. |
| Reaper.Cleanup | src/scanner.ts:38-54 | The sweep only removes aircraft and events, and it keeps the scanner invariant. |
| Reaper.CleanupInactiveAircraft | src/scanner.ts:38-54 | Visiting each aircraft once and deleting it when its latest time is strictly below now minus 300000, the loop keeps exactly the aircraft that are not stale, with their records unchanged. On a well-keyed store it removes exactly the events of evicted aircraft. It never alters a kept event, and it equals the declarative `Cleanup`. |
| Reaper.SweepBoundary | src/scanner.ts:40-43 | An aircraft whose latest time is at or above the threshold stays. An aircraft with an empty track (time 0) goes once now exceeds 300000. |
| Scanner.UpdateAll | src/scanner.ts:64-83 | Folding the batch adds exactly the batch's codes to the registry and leaves aircraft not in the batch unchanged. It emits at most one notification per report, each a loitering announcement of a loitering record. Every aircraft of the batch that ends up loitering is announced with its final record. |
| Scanner.UpdateAllSnoc | src/scanner.ts:64-83 | The fold's last step: the last report updates the store the earlier reports left, and its announcement, if any, follows theirs. |
| Scanner.UpdateAllPrefix | src/scanner.ts:64-83 | Announcements come out in batch order: folding a prefix of the batch emits a prefix of the whole fold's trace. |
| Scanner.UpdateAnnouncedInOrder | src/scanner.ts:64-83 | Every report's update is announced when it leaves its aircraft loitering. That announcement comes right after the announcements of the earlier reports, inside the whole fold's trace. |
| Scanner.LastReportWins | src/scanner.ts:64-83 | A report reaches its record: when no later report in the batch carries the same code, the aircraft after the whole fold is exactly the record that report's update produced from the store the earlier reports left. |
| Scanner.UpdateAllFramesEvents | src/scanner.ts:64-83 | In a valid store, the batch fold leaves the events of aircraft outside the batch unchanged. |
| Scanner.UpdateAllKeepsValid | src/scanner.ts:64-83 | The batch fold keeps the scanner invariant. |
| Scanner.Scan | src/scanner.ts:56-90 | A provider failure leaves the stores unchanged and emits only the error. A success adds the batch's codes to the registry and ends with the completed scan carrying the batch. Everything before that is a loitering announcement, and every batch aircraft that ends up loitering is among them. The store and the announcements a success leaves are the batch fold's, so each report reaches its record as `LastReportWins` states, and the announcements keep batch order as `UpdateAllPrefix` states. In a valid store, a success leaves the events of aircraft outside the batch unchanged. |
| Scanner.Cycle | src/scanner.ts:27-30 | A cycle emits what its scan emits, and that trace holds exactly one completion or error. After either provider outcome, an aircraft the scan left behind survives unchanged exactly when it is not stale at the sweep time. No survivor is stale, and survivors are aircraft tracked before or reported in this batch. After a failed scan, the store is the sweep of the old store. An event the scan left behind survives unchanged exactly when its aircraft is not evicted by the sweep. The one-completion-or-error count assumes no listener throws. |
| Scanner.CycleKeepsValid | src/scanner.ts:27-30 | A cycle keeps the scanner invariant, whatever the provider returns. |
| Scanner.Run | src/scanner.ts:26-31 | A run of N cycles emits exactly N scan completions or errors in total, given listeners that do not throw. |
| Scanner.RunOne | src/scanner.ts:26-31 | A run of one input is exactly one cycle on the starting store. |
| Scanner.RunSnoc | src/scanner.ts:26-31 | Each cycle starts from the store the cycles before it left, and the run's trace is the earlier cycles' trace followed by this cycle's. |
| Scanner.RunPrefix | src/scanner.ts:26-31 | Notifications of earlier cycles come first: running a prefix of the inputs emits a prefix of the whole run's trace. |
| Scanner.RunKeepsValid | src/scanner.ts:26-31 | Any number of cycles from empty stores leaves every event attached to a tracked aircraft under its own code, every loitering aircraft with an event, and every track bounded by 50. |
| Scenarios.ThreeCycles | src/scanner.ts:92-189 | ABC123 reports P1, P2 and P3 in three cycles of the scanner loop and is first flagged at P2. The run ends with its track [P3, P2, P1] and exactly one event, with count 2, first detected in the second cycle and last updated in the third. |
| Scenarios.SilentAircraftEvicted | src/scanner.ts:38-54 | An aircraft seen once goes with its event after six minutes of silence, even when that cycle's scan fails. After four minutes both stay. |

## Left out

- `src/logger.ts` wraps the external logging library and has no logic. Console logging in `scanner.ts` is left out too, including the created/updated message at line 188, which always says "updated".
- The `start`/`stop` running flag, the `setTimeout` sleep and the `EventEmitter` machinery are about asynchronous scheduling. `Scanner.Run` stands for the loop as a sequence of cycles, and notifications form an output trace.
- The analyzer's internals, the position source, the region bounds and the event store's own module are not part of this model. They become a function parameter, a `ProviderResult` and a map keyed by event id.
- `updateAircraft` called directly with an empty or multi-sample track is not modelled. The input is a report with one sample, which is what the scan always builds. For an existing aircraft, an empty incoming track would prepend `undefined`.
- Floating-point coordinates and kinematics, including NaN under `!==`, are modelled as integers compared by equality. A timestamp is "falsy" only when it is 0; `undefined` and NaN timestamps are not modelled.
- Exceptions thrown by the analyzer or by any listener are not modelled; the model assumes listeners do not throw. A throw from the analyzer or a `loiteringAircraft` listener (line 124) in the middle of the batch fold would leave a partly applied batch and emit `error` instead of `scan`. A throw from a `scan` listener (line 85) is caught by the same handler, so that cycle would emit both a completion and an error, and the one-per-cycle count of `Scanner.Cycle` and `Scanner.Run` would not hold. A thrown provider call is modelled as `Failed`.
- The JavaScript map's insertion order is not modelled. The sweep visits aircraft in an arbitrary order. On a well-keyed store the result is proved not to depend on that order.
- The state does not record past verdicts. So the design description's clause "an event exists only if its aircraft has been flagged loitering since its last eviction" is not stated. What `Valid` states is that an event implies a tracked aircraft, and a current loitering verdict implies an event.
- A failed scan is modelled as emitting `error` and carrying on to the sweep. That holds only when an `error` listener is attached. With no listener, Node's `EventEmitter` throws from `emit('error', ...)` at line 88. The throw leaves `scan()`, rejects `start()`, ends the loop with no sweep, and leaves `running` set. The model assumes a listener is attached.

=== FILE: event_store.dfy ===
/** The loitering event store and the correlation policy the scanner applies to
    it. The store is a map keyed by event id; lookup is by aircraft code. */
module EventStore {
  import opened Types

  function GetEventByIcao(events: map<Icao, LoiteringEvent>, icao: Icao): (r: Option<LoiteringEvent>)
    ensures r.Some? <==> icao in events
    ensures r.Some? ==> r.value == events[icao]
  {
    if icao in events then Some(events[icao]) else None
  }

  /** Insert-or-replace under the event's own id. */
  function SaveEvent(events: map<Icao, LoiteringEvent>, e: LoiteringEvent): (r: map<Icao, LoiteringEvent>)
    ensures r.Keys == events.Keys + {e.id}
    ensures r[e.id] == e
    ensures forall k :: k in events && k != e.id ==> r[k] == events[k]
  {
    events[e.id := e]
  }

  /** Removes the event with this id; nothing happens when there is none. */
  function DeleteEvent(events: map<Icao, LoiteringEvent>, id: Icao): (r: map<Icao, LoiteringEvent>)
    ensures r.Keys == events.Keys - {id}
    ensures forall k :: k in r ==> r[k] == events[k]
  {
    events - {id}
  }

  /** The kinematic snapshot of one sample. */
  function StateOf(s: Sample): AircraftState {
    AircraftState(s.altitude, s.speed, s.heading, s.verticalRate, Position(s.latitude, s.longitude))
  }

  /** The fields an existing event takes from one more detection of its aircraft. */
  function Refresh(e: LoiteringEvent, a: Aircraft, now: int): LoiteringEvent {
    var state := if |a.track| > 0 then StateOf(a.track[0]) else e.aircraftState;
    e.(lastUpdated := now, detectionCount := e.detectionCount + 1, aircraftState := state, track := a.track)
  }

  /** The event a first detection creates; it needs the newest sample. */
  function Fresh(a: Aircraft, now: int): LoiteringEvent
    requires |a.track| > 0
  {
    LoiteringEvent(a.icao, a.icao, a.callsign, now, now, 1, [], StateOf(a.track[0]), a.track)
  }

  /** Correlates one loitering detection of `a` at time `now` into the store. */
  function HandleLoiteringDetection(events: map<Icao, LoiteringEvent>, a: Aircraft, now: int): (r: map<Icao, LoiteringEvent>)
    // an existing event is counted once more, stamped, and takes the aircraft's track
    ensures a.icao in events ==>
      var e := events[a.icao];
      && r.Keys == events.Keys + {e.id}
      && r[e.id].detectionCount == e.detectionCount + 1
      && r[e.id].lastUpdated == now
      && r[e.id].firstDetected == e.firstDetected
      && r[e.id].id == e.id && r[e.id].icao == e.icao && r[e.id].callsign == e.callsign
      && r[e.id].intersectionPoints == e.intersectionPoints
      && r[e.id].track == a.track
      && r[e.id].aircraftState == (if |a.track| > 0 then StateOf(a.track[0]) else e.aircraftState)
      && (forall k :: k in events && k != e.id ==> r[k] == events[k])
    // a first detection creates an event named after the aircraft
    ensures a.icao !in events && |a.track| > 0 ==>
      && r.Keys == events.Keys + {a.icao}
      && r[a.icao].id == a.icao && r[a.icao].icao == a.icao && r[a.icao].callsign == a.callsign
      && r[a.icao].detectionCount == 1
      && r[a.icao].firstDetected == now && r[a.icao].lastUpdated == now
      && r[a.icao].intersectionPoints == []
      && r[a.icao].aircraftState == StateOf(a.track[0])
      && r[a.icao].track == a.track
      && (forall k :: k in events ==> r[k] == events[k])
    // without a sample there is nothing to build an event from
    ensures a.icao !in events && |a.track| == 0 ==> r == events
    ensures WellKeyed(events) ==> WellKeyed(r)
  {
    match GetEventByIcao(events, a.icao)
    case Some(e) => SaveEvent(events, Refresh(e, a, now))
    case None =>
      if |a.track| == 0 then events else SaveEvent(events, Fresh(a, now))
  }

  /** In a well-keyed store the detected aircraft always holds an event
      afterwards, unless it had neither an event nor a sample. */
  lemma DetectionLeavesEvent(events: map<Icao, LoiteringEvent>, a: Aircraft, now: int)
    requires WellKeyed(events)
    requires a.icao in events || |a.track| > 0
    ensures var r := HandleLoiteringDetection(events, a, now);
      && a.icao in r
      && r.Keys == events.Keys + {a.icao}
      && r[a.icao].lastUpdated == now
      && r[a.icao].track == a.track
  {
  }

  /** Two detections in a row, from nothing: the first creates the event, the second
      counts it again without moving its first-detection time. */
  lemma {:induction false} TwoDetections(events: map<Icao, LoiteringEvent>, a1: Aircraft, a2: Aircraft, t1: int, t2: int)
    requires WellKeyed(events)
    requires a1.icao !in events && |a1.track| > 0
    requires a2.icao == a1.icao
    ensures var r := HandleLoiteringDetection(HandleLoiteringDetection(events, a1, t1), a2, t2);
      && r[a1.icao].detectionCount == 2
      && r[a1.icao].firstDetected == t1
      && r[a1.icao].lastUpdated == t2
      && r[a1.icao].callsign == a1.callsign
  {
    var r1 := HandleLoiteringDetection(events, a1, t1);
    assert r1[a1.icao].id == a1.icao;
  }
}

=== FILE: reaper.dfy ===
/** The inactivity sweep: evicts every aircraft whose newest sample is more than
    five minutes old, together with its loitering event. */
module Reaper {
  import opened Types
  import EventStore

  /** The newest sample's time in milliseconds; an empty track, or a zero
      (falsy) timestamp, counts as time 0. */
  function Latest(a: Aircraft): (t: int)
    ensures |a.track| == 0 ==> t == 0
    ensures |a.track| > 0 ==> t == a.track[0].timestamp * 1000
  {
    if |a.track| == 0 || a.track[0].timestamp == 0 then 0 else a.track[0].timestamp * 1000
  }

  /** Stale strictly before the threshold: an aircraft exactly at it stays. */
  predicate Inactive(a: Aircraft, now: int) {
    Latest(a) < now - InactivityThresholdMs
  }

  /** The codes the sweep at `now` evicts. */
  ghost predicate Evicted(st: Store, now: int, k: Icao) {
    k in st.aircraft && Inactive(st.aircraft[k], now)
  }

  /** The store after the sweep, stated as a whole: the active aircraft, and the
      events of aircraft that were not evicted. */
  function Cleanup(st: Store, now: int): (r: Store)
    ensures r.aircraft.Keys <= st.aircraft.Keys && r.events.Keys <= st.events.Keys
    ensures Valid(st) ==> Valid(r)
  {
    Store(
      map k | k in st.aircraft && !Inactive(st.aircraft[k], now) :: st.aircraft[k],
      map k | k in st.events && !(k in st.aircraft && Inactive(st.aircraft[k], now)) :: st.events[k])
  }

  /** The sweep as the scanner runs it: visit every tracked aircraft once, delete
      it when inactive, then look its event up by code and delete that by id. */
  method CleanupInactiveAircraft(st: Store, now: int) returns (r: Store)
    ensures forall k :: k in r.aircraft <==> k in st.aircraft && !Inactive(st.aircraft[k], now)
    ensures forall k :: k in r.aircraft ==> r.aircraft[k] == st.aircraft[k]
    ensures WellKeyed(st.events) ==>
      forall k :: k in r.events <==> k in st.events && !Evicted(st, now, k)
    ensures forall k :: k in r.events ==> k in st.events && r.events[k] == st.events[k]
    ensures WellKeyed(st.events) ==> r == Cleanup(st, now)
  {
    var aircraft := st.aircraft;
    var events := st.events;
    var todo := st.aircraft.Keys;
    while todo != {}
      invariant todo <= st.aircraft.Keys
      invariant forall k :: k in aircraft <==> k in st.aircraft && (k in todo || !Inactive(st.aircraft[k], now))
      invariant forall k :: k in aircraft ==> aircraft[k] == st.aircraft[k]
      invariant WellKeyed(st.events) ==>
        forall k :: k in events <==> k in st.events && !(Evicted(st, now, k) && k !in todo)
      invariant forall k :: k in events ==> k in st.events && events[k] == st.events[k]
      decreases todo
    {
      var icao :| icao in todo;
      todo := todo - {icao};
      var a := aircraft[icao];
      if Inactive(a, now) {
        aircraft := aircraft - {icao};
        match EventStore.GetEventByIcao(events, icao)
        case Some(e) =>
          events := EventStore.DeleteEvent(events, e.id);
        case None =>
      }
    }
    r := Store(aircraft, events);
  }

  /** The sweep never removes an aircraft whose newest sample is within the
      threshold, and always removes one whose track is empty once `now` is past it. */
  lemma SweepBoundary(st: Store, now: int, k: Icao)
    requires k in st.aircraft
    ensures Latest(st.aircraft[k]) >= now - InactivityThresholdMs ==> k in Cleanup(st, now).aircraft
    ensures |st.aircraft[k].track| == 0 && now > InactivityThresholdMs ==> k !in Cleanup(st, now).aircraft
  {
  }
}

=== FILE: registry.dfy ===
/** The aircraft registry: how one report changes the tracked record, how the
    analyzer's verdict is written back, and when the event store is touched. */
module Registry {
  import opened Types
  import Track
  import EventStore

  /** The external analyzer, which is not modelled: any function of the record. */
  type Analyzer = Aircraft -> Analysis

  /** The record a report becomes on first sight: its one sample and default flags. */
  function FromReport(r: Report): Aircraft {
    Aircraft(r.icao, r.callsign, false, None, false, [r.sample])
  }

  /** The record the analyzer sees: the new one, or the tracked one with the
      sample offered to its track and the callsign overwritten. */
  function Received(registry: map<Icao, Aircraft>, r: Report): (a: Aircraft)
    ensures a.icao == (if r.icao in registry then registry[r.icao].icao else r.icao)
    ensures a.callsign == r.callsign
  {
    if r.icao !in registry then FromReport(r)
    else
      var t := registry[r.icao];
      t.(track := Track.Append(t.track, r.sample), callsign := r.callsign)
  }

  function WithAnalysis(a: Aircraft, v: Analysis): Aircraft {
    a.(isMonitored := v.isMonitored, notMonitoredReason := v.notMonitoredReason, isLoitering := v.isLoitering)
  }

  /** The outcome of one update: the new store and the record it announces as
      loitering, if any. */
  datatype Update = Update(store: Store, loitering: Option<Aircraft>)

  /** Applies one report at time `now`. */
  function UpdateAircraft(st: Store, r: Report, analyze: Analyzer, now: int): (u: Update)
    // the report's code is tracked afterwards, and no other record changes
    ensures u.store.aircraft.Keys == st.aircraft.Keys + {r.icao}
    ensures forall k :: k in st.aircraft && k != r.icao ==> u.store.aircraft[k] == st.aircraft[k]
    // an unseen code is tracked with exactly the reported sample
    ensures r.icao !in st.aircraft ==>
      && u.store.aircraft[r.icao].track == [r.sample]
      && u.store.aircraft[r.icao].icao == r.icao
    // a seen code has the sample offered to its track; its callsign is overwritten
    ensures r.icao in st.aircraft ==>
      && u.store.aircraft[r.icao].track == Track.Append(st.aircraft[r.icao].track, r.sample)
      && u.store.aircraft[r.icao].icao == st.aircraft[r.icao].icao
    ensures u.store.aircraft[r.icao].callsign == r.callsign
    // the flags are the analyzer's verdict on the record after that change
    ensures
      var a := u.store.aircraft[r.icao];
      var v := analyze(Received(st.aircraft, r));
      && a.isMonitored == v.isMonitored
      && a.notMonitoredReason == v.notMonitoredReason
      && a.isLoitering == v.isLoitering
    // only a loitering verdict touches the event store, and it is announced
    ensures !u.store.aircraft[r.icao].isLoitering ==> u.store.events == st.events && u.loitering == None
    ensures u.store.aircraft[r.icao].isLoitering ==>
      && u.store.events == EventStore.HandleLoiteringDetection(st.events, u.store.aircraft[r.icao], now)
      && u.loitering == Some(u.store.aircraft[r.icao])
  {
    var tracked := Received(st.aircraft, r);
    var a := WithAnalysis(tracked, analyze(tracked));
    var aircraft := st.aircraft[r.icao := a];
    if a.isLoitering then
      Update(Store(aircraft, EventStore.HandleLoiteringDetection(st.events, a, now)), Some(a))
    else
      Update(Store(aircraft, st.events), None)
  }

  /** One update keeps the scanner invariant; a loitering aircraft holds an event
      afterwards, and its track is never empty. */
  lemma UpdateKeepsValid(st: Store, r: Report, analyze: Analyzer, now: int)
    requires Valid(st)
    ensures var u := UpdateAircraft(st, r, analyze, now);
      && Valid(u.store)
      && |u.store.aircraft[r.icao].track| > 0
      && (u.store.aircraft[r.icao].isLoitering ==> r.icao in u.store.events)
  {
    var u := UpdateAircraft(st, r, analyze, now);
    var a := u.store.aircraft[r.icao];
    if a.isLoitering {
      EventStore.DetectionLeavesEvent(st.events, a, now);
    }
  }

  /** A report for an unseen code grows the registry by one record; a report
      for a tracked code leaves its size alone. */
  lemma RegistrySize(st: Store, r: Report, analyze: Analyzer, now: int)
    ensures |UpdateAircraft(st, r, analyze, now).store.aircraft| == |st.aircraft| + (if r.icao in st.aircraft then 0 else 1)
  {
    var m := UpdateAircraft(st, r, analyze, now).store.aircraft;
    assert m.Keys == st.aircraft.Keys + {r.icao};
    if r.icao in st.aircraft {
      assert m.Keys == st.aircraft.Keys;
    } else {
      assert |st.aircraft.Keys + {r.icao}| == |st.aircraft.Keys| + 1;
    }
    assert |m| == |m.Keys| && |st.aircraft| == |st.aircraft.Keys|;
  }

  /** Updating with a sample that only moves in time leaves a tracked record's track alone. */
  lemma TimestampOnlyKeepsTrack(st: Store, r: Report, analyze: Analyzer, now: int)
    requires r.icao in st.aircraft && |st.aircraft[r.icao].track| > 0
    requires r.sample == st.aircraft[r.icao].track[0].(timestamp := r.sample.timestamp)
    ensures UpdateAircraft(st, r, analyze, now).store.aircraft[r.icao].track == st.aircraft[r.icao].track
  {
  }
}

=== FILE: scanner.dfy ===
/** One scan cycle: fold the provider's batch through the registry, announce the
    scan, then sweep inactive aircraft. Notifications are an output trace in
    emission order. */
module Scanner {
  import opened Types
  import Registry
  import Reaper

  datatype Notification =
    | LoiteringAircraft(aircraft: Aircraft)
    | ScanCompleted(batch: seq<Report>)
    | ScanError(error: string)

  /** What the position source hands back for one scan. */
  datatype ProviderResult = Scanned(batch: seq<Report>) | Failed(error: string)

  datatype Step = Step(store: Store, trace: seq<Notification>)

  /** The clock, read once per report at the position of that report in the batch. */
  type Clock = nat -> int

  function Codes(batch: seq<Report>): set<Icao> {
    set i | 0 <= i < |batch| :: batch[i].icao
  }

  ghost predicate OnlyLoitering(trace: seq<Notification>) {
    forall i :: 0 <= i < |trace| ==> trace[i].LoiteringAircraft? && trace[i].aircraft.isLoitering
  }

  function Announce(u: Registry.Update): seq<Notification> {
    match u.loitering
    case Some(a) => [LoiteringAircraft(a)]
    case None => []
  }

  lemma CodesOfSnoc(batch: seq<Report>)
    requires |batch| > 0
    ensures Codes(batch) == Codes(batch[..|batch| - 1]) + {batch[|batch| - 1].icao}
  {
    var n := |batch| - 1;
    forall c | c in Codes(batch) ensures c in Codes(batch[..n]) + {batch[n].icao} {
      var i :| 0 <= i < |batch| && batch[i].icao == c;
      if i < n { assert batch[..n][i] == batch[i]; }
    }
    forall c | c in Codes(batch[..n]) ensures c in Codes(batch) {
      var i :| 0 <= i < n && batch[..n][i].icao == c;
      assert batch[i] == batch[..n][i];
    }
  }

  /** Applies the reports of `batch` in order, collecting the loitering announcements. */
  function UpdateAll(st: Store, batch: seq<Report>, analyze: Registry.Analyzer, clock: Clock): (s: Step)
    ensures s.store.aircraft.Keys == st.aircraft.Keys + Codes(batch)
    ensures forall k :: k in st.aircraft && k !in Codes(batch) ==> s.store.aircraft[k] == st.aircraft[k]
    ensures OnlyLoitering(s.trace) && |s.trace| <= |batch|
    // every aircraft of the batch that ends up loitering has been announced as it ends up
    ensures forall k :: k in Codes(batch) && s.store.aircraft[k].isLoitering ==> LoiteringAircraft(s.store.aircraft[k]) in s.trace
    decreases |batch|
  {
    if |batch| == 0 then Step(st, [])
    else
      var n := |batch| - 1;
      var p := UpdateAll(st, batch[..n], analyze, clock);
      var u := Registry.UpdateAircraft(p.store, batch[n], analyze, clock(n));
      CodesOfSnoc(batch);
      assert u.store.aircraft.Keys == p.store.aircraft.Keys + {batch[n].icao};
      assert forall k :: k in Codes(batch) && u.store.aircraft[k].isLoitering ==>
        LoiteringAircraft(u.store.aircraft[k]) in p.trace + Announce(u) by {
        forall k | k in Codes(batch) && u.store.aircraft[k].isLoitering
          ensures LoiteringAircraft(u.store.aircraft[k]) in p.trace + Announce(u)
        {
          if k == batch[n].icao {
            assert Announce(u) == [LoiteringAircraft(u.store.aircraft[k])];
          } else {
            assert u.store.aircraft[k] == p.store.aircraft[k];
            assert LoiteringAircraft(p.store.aircraft[k]) in p.trace;
          }
        }
      }
      Step(u.store, p.trace + Announce(u))
  }

  /** One call to the provider and the updates it drives. A failure leaves the
      store alone and is announced as an error; a success announces every
      loitering record first and the completed scan last. */
  function Scan(st: Store, result: ProviderResult, analyze: Registry.Analyzer, clock: Clock): (s: Step)
    ensures result.Failed? ==> s.store == st && s.trace == [ScanError(result.error)]
    ensures result.Scanned? ==>
      && |s.trace| > 0
      && s.trace[|s.trace| - 1] == ScanCompleted(result.batch)
      && OnlyLoitering(s.trace[..|s.trace| - 1])
      && s.store.aircraft.Keys == st.aircraft.Keys + Codes(result.batch)
      && (forall k :: k in Codes(result.batch) && s.store.aircraft[k].isLoitering ==>
            LoiteringAircraft(s.store.aircraft[k]) in s.trace[..|s.trace| - 1])
    // the store a success leaves is the batch fold's, so `LastReportWins` applies to it
    ensures result.Scanned? ==> s.store == UpdateAll(st, result.batch, analyze, clock).store
    // and its announcements are the fold's, in batch order (`UpdateAllPrefix`)
    ensures result.Scanned? ==> s.trace == UpdateAll(st, result.batch, analyze, clock).trace + [ScanCompleted(result.batch)]
    ensures result.Scanned? && Valid(st) ==>
      forall k :: k in st.events && k !in Codes(result.batch) ==> k in s.store.events && s.store.events[k] == st.events[k]
  {
    match result
    case Failed(e) => Step(st, [ScanError(e)])
    case Scanned(batch) =>
      var p := UpdateAll(st, batch, analyze, clock);
      assert (p.trace + [ScanCompleted(batch)])[..|p.trace|] == p.trace;
      assert Valid(st) ==> forall k :: k in st.events && k !in Codes(batch) ==> k in p.store.events && p.store.events[k] == st.events[k] by {
        if Valid(st) { UpdateAllFramesEvents(st, batch, analyze, clock); }
      }
      Step(p.store, p.trace + [ScanCompleted(batch)])
  }

  /** The fold's last step: the last report updates the store the prefix left,
      and its announcement follows the prefix's trace. */
  lemma UpdateAllSnoc(st: Store, batch: seq<Report>, analyze: Registry.Analyzer, clock: Clock)
    requires |batch| > 0
    ensures var p := UpdateAll(st, batch[..|batch| - 1], analyze, clock);
      var u := Registry.UpdateAircraft(p.store, batch[|batch| - 1], analyze, clock(|batch| - 1));
      UpdateAll(st, batch, analyze, clock) == Step(u.store, p.trace + Announce(u))
  {
  }

  /** An earlier report's code that the last report does not carry keeps the
      record the prefix left it. */
  lemma LaterReportKeeps(st: Store, batch: seq<Report>, analyze: Registry.Analyzer, clock: Clock, i: nat)
    requires i < |batch| - 1 && batch[i].icao != batch[|batch| - 1].icao
    ensures UpdateAll(st, batch, analyze, clock).store.aircraft[batch[i].icao]
         == UpdateAll(st, batch[..|batch| - 1], analyze, clock).store.aircraft[batch[i].icao]
  {
    var prefix := batch[..|batch| - 1];
    assert prefix[i] == batch[i];
    assert batch[i].icao in Codes(prefix);
    UpdateAllSnoc(st, batch, analyze, clock);
  }

  /** The last report's record is what its update made of the store the prefix left. */
  lemma LastReportUpdates(st: Store, batch: seq<Report>, analyze: Registry.Analyzer, clock: Clock)
    requires |batch| > 0
    ensures var n := |batch| - 1;
      UpdateAll(st, batch, analyze, clock).store.aircraft[batch[n].icao]
        == Registry.UpdateAircraft(UpdateAll(st, batch[..n], analyze, clock).store, batch[n], analyze, clock(n)).store.aircraft[batch[n].icao]
  {
    UpdateAllSnoc(st, batch, analyze, clock);
  }

  /** A report reaches its record: when no later report of the batch carries the
      same code, the aircraft ends up exactly as that report's update left it. */
  lemma {:induction false} LastReportWins(st: Store, batch: seq<Report>, analyze: Registry.Analyzer, clock: Clock, j: nat)
    requires j < |batch|
    requires forall i :: j < i < |batch| ==> batch[i].icao != batch[j].icao
    ensures UpdateAll(st, batch, analyze, clock).store.aircraft[batch[j].icao]
         == Registry.UpdateAircraft(UpdateAll(st, batch[..j], analyze, clock).store, batch[j], analyze, clock(j)).store.aircraft[batch[j].icao]
    decreases |batch|
  {
    if j == |batch| - 1 {
      LastReportUpdates(st, batch, analyze, clock);
    } else {
      var prefix := batch[..|batch| - 1];
      var c := batch[j].icao;
      assert prefix[j] == batch[j] && prefix[..j] == batch[..j];
      assert UpdateAll(st, prefix, analyze, clock).store.aircraft[c]
          == Registry.UpdateAircraft(UpdateAll(st, batch[..j], analyze, clock).store, batch[j], analyze, clock(j)).store.aircraft[c] by {
        LastReportWins(st, prefix, analyze, clock, j);
      }
      assert UpdateAll(st, batch, analyze, clock).store.aircraft[c] == UpdateAll(st, prefix, analyze, clock).store.aircraft[c] by {
        LaterReportKeeps(st, batch, analyze, clock, j);
      }
    }
  }

  /** Announcements come out in batch order: folding a prefix of the batch
      emits a prefix of the whole fold's trace. */
  lemma {:induction false} UpdateAllPrefix(st: Store, batch: seq<Report>, analyze: Registry.Analyzer, clock: Clock, j: nat)
    requires j <= |batch|
    ensures UpdateAll(st, batch[..j], analyze, clock).trace <= UpdateAll(st, batch, analyze, clock).trace
    decreases |batch|
  {
    if j == |batch| {
      assert batch[..j] == batch;
    } else {
      var prefix := batch[..|batch| - 1];
      assert prefix[..j] == batch[..j];
      UpdateAllPrefix(st, prefix, analyze, clock, j);
      UpdateAllSnoc(st, batch, analyze, clock);
    }
  }

  /** Every report's update is announced when it leaves the aircraft loitering,
      after the announcements of the reports before it and before those after it. */
  lemma UpdateAnnouncedInOrder(st: Store, batch: seq<Report>, analyze: Registry.Analyzer, clock: Clock, j: nat)
    requires j < |batch|
    ensures var p := UpdateAll(st, batch[..j], analyze, clock);
      p.trace + Announce(Registry.UpdateAircraft(p.store, batch[j], analyze, clock(j))) <= UpdateAll(st, batch, analyze, clock).trace
  {
    var front := batch[..j + 1];
    assert front[..j] == batch[..j];
    assert front[j] == batch[j];
    var p := UpdateAll(st, batch[..j], analyze, clock);
    assert UpdateAll(st, front, analyze, clock).trace
        == p.trace + Announce(Registry.UpdateAircraft(p.store, batch[j], analyze, clock(j)));
    UpdateAllPrefix(st, batch, analyze, clock, j + 1);
  }

  lemma {:induction false} UpdateAllKeepsValid(st: Store, batch: seq<Report>, analyze: Registry.Analyzer, clock: Clock)
    requires Valid(st)
    ensures Valid(UpdateAll(st, batch, analyze, clock).store)
    decreases |batch|
  {
    if |batch| > 0 {
      var n := |batch| - 1;
      UpdateAllKeepsValid(st, batch[..n], analyze, clock);
      Registry.UpdateKeepsValid(UpdateAll(st, batch[..n], analyze, clock).store, batch[n], analyze, clock(n));
    }
  }

  /** In a valid store the batch fold leaves the events of aircraft outside the
      batch alone. */
  lemma {:induction false} UpdateAllFramesEvents(st: Store, batch: seq<Report>, analyze: Registry.Analyzer, clock: Clock)
    requires Valid(st)
    ensures var s := UpdateAll(st, batch, analyze, clock).store;
      forall k :: k in st.events && k !in Codes(batch) ==> k in s.events && s.events[k] == st.events[k]
    decreases |batch|
  {
    if |batch| > 0 {
      var n := |batch| - 1;
      UpdateAllFramesEvents(st, batch[..n], analyze, clock);
      UpdateAllKeepsValid(st, batch[..n], analyze, clock);
      CodesOfSnoc(batch);
      var p := UpdateAll(st, batch[..n], analyze, clock).store;
      var u := Registry.UpdateAircraft(p, batch[n], analyze, clock(n)).store;
      forall k | k in st.events && k !in Codes(batch) ensures k in u.events && u.events[k] == st.events[k] {
        assert k in p.events && p.events[k] == st.events[k];
        assert k != batch[n].icao;
        var a := u.aircraft[batch[n].icao];
        if a.isLoitering {
          assert a.icao == batch[n].icao;
          assert batch[n].icao in p.events ==> p.events[batch[n].icao].id == batch[n].icao;
        }
      }
    }
  }

  /** The number of notifications that close a scan: completions and errors. */
  function Ends(trace: seq<Notification>): nat
    decreases |trace|
  {
    if |trace| == 0 then 0
    else Ends(trace[..|trace| - 1]) + (if trace[|trace| - 1].LoiteringAircraft? then 0 else 1)
  }

  lemma {:induction false} EndsOfConcat(a: seq<Notification>, b: seq<Notification>)
    ensures Ends(a + b) == Ends(a) + Ends(b)
    decreases |b|
  {
    if |b| == 0 {
      assert a + b == a;
    } else {
      var n := |b| - 1;
      assert (a + b)[..|a + b| - 1] == a + b[..n];
      EndsOfConcat(a, b[..n]);
    }
  }

  lemma {:induction false} NoEndsWhileLoitering(t: seq<Notification>)
    requires OnlyLoitering(t)
    ensures Ends(t) == 0
    decreases |t|
  {
    if |t| > 0 {
      var n := |t| - 1;
      assert OnlyLoitering(t[..n]) by {
        forall i | 0 <= i < n ensures t[..n][i].LoiteringAircraft? && t[..n][i].aircraft.isLoitering {
          assert t[..n][i] == t[i];
        }
      }
      NoEndsWhileLoitering(t[..n]);
    }
  }

  /** Everything one cycle needs from the outside world. */
  datatype CycleInput = CycleInput(result: ProviderResult, clock: Clock, sweepTime: int)

  /** Scan, then sweep; the sweep runs whether or not the provider failed. */
  function Cycle(st: Store, input: CycleInput, analyze: Registry.Analyzer): (s: Step)
    ensures input.result.Failed? ==> s.store == Reaper.Cleanup(st, input.sweepTime)
    // after either outcome, an aircraft the scan left behind survives exactly when it is not stale
    ensures var p := Scan(st, input.result, analyze, input.clock).store;
      && (forall k :: k in p.aircraft ==> (k in s.store.aircraft <==> !Reaper.Inactive(p.aircraft[k], input.sweepTime)))
      && (forall k :: k in s.store.aircraft ==> k in p.aircraft && s.store.aircraft[k] == p.aircraft[k])
    // events survive exactly when their aircraft is not evicted, whatever its current verdict
    ensures var p := Scan(st, input.result, analyze, input.clock).store;
      && (forall k :: k in s.store.events <==> k in p.events && !Reaper.Evicted(p, input.sweepTime, k))
      && (forall k :: k in s.store.events ==> s.store.events[k] == p.events[k])
    ensures forall k :: k in s.store.aircraft ==> !Reaper.Inactive(s.store.aircraft[k], input.sweepTime)
    ensures s.store.aircraft.Keys <= st.aircraft.Keys + (if input.result.Scanned? then Codes(input.result.batch) else {})
    ensures s.trace == Scan(st, input.result, analyze, input.clock).trace
    ensures Ends(s.trace) == 1
  {
    var p := Scan(st, input.result, analyze, input.clock);
    if input.result.Scanned? then
      var t := p.trace;
      EndsOfConcat(t[..|t| - 1], [t[|t| - 1]]);
      NoEndsWhileLoitering(t[..|t| - 1]);
      assert t[..|t| - 1] + [t[|t| - 1]] == t;
      assert Ends([t[|t| - 1]]) == 1 by {
        assert [t[|t| - 1]][..0] == [];
      }
      Step(Reaper.Cleanup(p.store, input.sweepTime), p.trace)
    else
      assert p.trace[..0] == [];
      Step(Reaper.Cleanup(p.store, input.sweepTime), p.trace)
  }

  /** A cycle keeps the scanner invariant, whatever the provider returns. */
  lemma CycleKeepsValid(st: Store, input: CycleInput, analyze: Registry.Analyzer)
    requires Valid(st)
    ensures Valid(Cycle(st, input, analyze).store)
  {
    if input.result.Scanned? {
      UpdateAllKeepsValid(st, input.result.batch, analyze, input.clock);
    }
  }

  /** The scanner loop, one cycle per input, collecting every notification. */
  function Run(st: Store, inputs: seq<CycleInput>, analyze: Registry.Analyzer): (s: Step)
    // each cycle closes its notifications with exactly one completion or error
    ensures Ends(s.trace) == |inputs|
    decreases |inputs|
  {
    if |inputs| == 0 then Step(st, [])
    else
      var n := |inputs| - 1;
      var p := Run(st, inputs[..n], analyze);
      var c := Cycle(p.store, inputs[n], analyze);
      EndsOfConcat(p.trace, c.trace);
      Step(c.store, p.trace + c.trace)
  }

  /** One input is one cycle: the run hands the store to `Cycle` and emits its trace. */
  lemma RunOne(st: Store, c: CycleInput, analyze: Registry.Analyzer)
    ensures Run(st, [c], analyze) == Cycle(st, c, analyze)
  {
    assert [c][..0] == [];
  }

  /** Each cycle starts from the store the cycles before it left, and the run's
      trace is the cycles' traces in order. */
  lemma RunSnoc(st: Store, inputs: seq<CycleInput>, c: CycleInput, analyze: Registry.Analyzer)
    ensures var p := Run(st, inputs, analyze);
      var q := Cycle(p.store, c, analyze);
      Run(st, inputs + [c], analyze) == Step(q.store, p.trace + q.trace)
  {
    assert (inputs + [c])[..|inputs|] == inputs;
  }

  /** The store a run reaches after one more cycle, given the store it reached before. */
  lemma RunStep(st: Store, inputs: seq<CycleInput>, c: CycleInput, analyze: Registry.Analyzer, before: Store)
    requires Run(st, inputs, analyze).store == before
    ensures Run(st, inputs + [c], analyze).store == Cycle(before, c, analyze).store
  {
    RunSnoc(st, inputs, c, analyze);
  }

  /** Notifications of earlier cycles come first: running a prefix of the
      inputs emits a prefix of the whole run's trace. */
  lemma {:induction false} RunPrefix(st: Store, inputs: seq<CycleInput>, analyze: Registry.Analyzer, j: nat)
    requires j <= |inputs|
    ensures Run(st, inputs[..j], analyze).trace <= Run(st, inputs, analyze).trace
    decreases |inputs|
  {
    if j == |inputs| {
      assert inputs[..j] == inputs;
    } else {
      var n := |inputs| - 1;
      var front := inputs[..n];
      assert front[..j] == inputs[..j];
      assert front + [inputs[n]] == inputs;
      RunPrefix(st, front, analyze, j);
      RunSnoc(st, front, inputs[n], analyze);
    }
  }

  /** However many cycles run, from the empty stores, every event belongs to a
      tracked aircraft, is keyed by that aircraft's code, and every track stays
      within the bound. */
  lemma {:induction false} RunKeepsValid(inputs: seq<CycleInput>, analyze: Registry.Analyzer)
    ensures Valid(Run(EmptyStore, inputs, analyze).store)
    decreases |inputs|
  {
    if |inputs| > 0 {
      var n := |inputs| - 1;
      RunKeepsValid(inputs[..n], analyze);
      CycleKeepsValid(Run(EmptyStore, inputs[..n], analyze).store, inputs[n], analyze);
    }
  }
}

=== FILE: scenarios.dfy ===
/** Concrete runs of the scanner with a fixed analyzer, showing the event
    correlation and the eviction timing on named aircraft. */
module Scenarios {
  import opened Types
  import Track
  import Registry
  import EventStore
  import Reaper
  import Scanner

  /** An analyzer that calls an aircraft loitering once it has moved at least once. */
  function HasMoved(a: Aircraft): Analysis {
    Analysis(true, None, |a.track| >= 2)
  }

  function AlwaysLoitering(a: Aircraft): Analysis {
    Analysis(true, None, true)
  }

  const P1: Sample := Sample(37500, 12500, 3000, 120, 90, 0, 1_000_000)
  const P2: Sample := Sample(37510, 12500, 3000, 120, 90, 0, 1_000_010)
  const P3: Sample := Sample(37520, 12500, 3000, 120, 90, 0, 1_000_020)

  function Report1(s: Sample): Scanner.ProviderResult {
    Scanner.Scanned([Report("ABC123", Some("MED1"), s)])
  }

  /** A clock that reads `t` milliseconds throughout the batch. */
  function Constant(t: int): Scanner.Clock {
    _ => t
  }

  const C1: Scanner.CycleInput := Scanner.CycleInput(Report1(P1), Constant(1_000_000_000), 1_000_000_000)
  const C2: Scanner.CycleInput := Scanner.CycleInput(Report1(P2), Constant(1_000_010_000), 1_000_010_000)
  const C3: Scanner.CycleInput := Scanner.CycleInput(Report1(P3), Constant(1_000_020_000), 1_000_020_000)

  function Tracked(track: seq<Sample>): Aircraft {
    Aircraft("ABC123", Some("MED1"), true, None, |track| >= 2, track)
  }

  /** ABC123's event as the cycles leave it; it was first detected in the second cycle. */
  function Event(count: int, last: int, track: seq<Sample>): LoiteringEvent
    requires |track| > 0
  {
    LoiteringEvent("ABC123", "ABC123", Some("MED1"), 1_000_010_000, last, count, [], EventStore.StateOf(track[0]), track)
  }

  function S1(): Store {
    Store(map["ABC123" := Tracked([P1])], map[])
  }

  function S2(): Store {
    Store(map["ABC123" := Tracked([P2, P1])], map["ABC123" := Event(1, 1_000_010_000, [P2, P1])])
  }

  function S3(): Store {
    Store(map["ABC123" := Tracked([P3, P2, P1])], map["ABC123" := Event(2, 1_000_020_000, [P3, P2, P1])])
  }

  lemma FirstCycle()
    ensures Scanner.Cycle(EmptyStore, C1, HasMoved).store == S1()
  {
    var p := Scanner.Scan(EmptyStore, C1.result, HasMoved, C1.clock).store;
    assert p == S1();
  }

  lemma SecondCycle()
    ensures Scanner.Cycle(S1(), C2, HasMoved).store == S2()
  {
    assert Track.Append([P1], P2) == [P2, P1];
    var p := Scanner.Scan(S1(), C2.result, HasMoved, C2.clock).store;
    assert p == S2();
  }

  lemma ThirdCycle()
    ensures Scanner.Cycle(S2(), C3, HasMoved).store == S3()
  {
    assert Track.Append([P2, P1], P3) == [P3, P2, P1];
    var p := Scanner.Scan(S2(), C3.result, HasMoved, C3.clock).store;
    assert p == S3();
  }

  /** ABC123's track holds P1, P2, P3 newest first, and exactly one event
      exists, detected twice, first at P2's cycle and last at P3's. */
  ghost predicate SettledAfterThree(s: Store) {
    && "ABC123" in s.aircraft
    && s.aircraft["ABC123"].track == [P3, P2, P1]
    && s.events.Keys == {"ABC123"}
    && s.events["ABC123"].detectionCount == 2
    && s.events["ABC123"].firstDetected == 1_000_010_000
    && s.events["ABC123"].lastUpdated == 1_000_020_000
  }

  lemma OneCycleRun()
    ensures Scanner.Run(EmptyStore, [C1], HasMoved).store == S1()
  {
    FirstCycle();
    Scanner.RunOne(EmptyStore, C1, HasMoved);
  }

  lemma TwoCycleRun()
    ensures Scanner.Run(EmptyStore, [C1, C2], HasMoved).store == S2()
  {
    OneCycleRun();
    SecondCycle();
    Scanner.RunStep(EmptyStore, [C1], C2, HasMoved, S1());
    assert [C1] + [C2] == [C1, C2];
  }

  /** ABC123 reports P1, P2, P3 in three cycles of the scanner loop; the
      analyzer first calls it loitering at P2. */
  lemma ThreeCycles()
    ensures var s := Scanner.Run(EmptyStore, [C1, C2, C3], HasMoved).store;
      s == S3() && SettledAfterThree(s)
  {
    assert SettledAfterThree(S3());
    assert [C1, C2] + [C3] == [C1, C2, C3];
    assert Scanner.Run(EmptyStore, [C1, C2] + [C3], HasMoved).store == Scanner.Cycle(S2(), C3, HasMoved).store by {
      TwoCycleRun();
      Scanner.RunStep(EmptyStore, [C1, C2], C3, HasMoved, S2());
    }
    ThirdCycle();
  }

  const X1: Sample := Sample(36000, 14000, 1500, 90, 270, -5, 2_000_000)

  /** XYZ789 reports once at second 2,000,000 and its detection opens an event. */
  function Seen(): Store {
    Scanner.Cycle(EmptyStore,
      Scanner.CycleInput(Scanner.Scanned([Report("XYZ789", None, X1)]), Constant(2_000_000_000), 2_000_000_000),
      AlwaysLoitering).store
  }

  /** Silent for six minutes, then a failed scan: the sweep that still follows
      removes the aircraft and its event. Silent for four minutes, both stay. */
  lemma SilentAircraftEvicted()
    ensures "XYZ789" in Seen().aircraft && "XYZ789" in Seen().events
    ensures var s := Scanner.Cycle(Seen(), Scanner.CycleInput(Scanner.Failed("timeout"), Constant(2_000_360_000), 2_000_360_000), AlwaysLoitering).store;
      "XYZ789" !in s.aircraft && EventStore.GetEventByIcao(s.events, "XYZ789") == None
    ensures var s := Scanner.Cycle(Seen(), Scanner.CycleInput(Scanner.Scanned([]), Constant(2_000_240_000), 2_000_240_000), AlwaysLoitering).store;
      "XYZ789" in s.aircraft && "XYZ789" in s.events
  {
    assert Seen().aircraft["XYZ789"].track == [X1];
    assert Reaper.Latest(Seen().aircraft["XYZ789"]) == 2_000_000_000;
  }
}

=== FILE: track.dfy ===
/** The per-aircraft track buffer: a newest-first sequence of samples, bounded
    at `MaxTrack`, into which a sample is prepended only when it moves. */
module Track {
  import opened Types

  /** The two samples disagree on one of the six compared fields; the
      timestamp is deliberately not among them. */
  predicate Differs(a: Sample, b: Sample) {
    || a.latitude != b.latitude
    || a.longitude != b.longitude
    || a.altitude != b.altitude
    || a.speed != b.speed
    || a.heading != b.heading
    || a.verticalRate != b.verticalRate
  }

  /** A sample is taken in when the track is empty or the sample differs from the head. */
  predicate TakesIn(track: seq<Sample>, s: Sample) {
    |track| == 0 || Differs(track[0], s)
  }

  /** Drops everything beyond the first `MaxTrack` samples. */
  function Truncate(t: seq<Sample>): (r: seq<Sample>)
    ensures r <= t
    ensures |r| == Min(|t|, MaxTrack)
  {
    if |t| > MaxTrack then t[..MaxTrack] else t
  }

  /** Offers one sample to a track. */
  function Append(track: seq<Sample>, s: Sample): (r: seq<Sample>)
    // whatever happens, the head now agrees with `s` on the compared fields
    ensures |r| > 0 && !Differs(r[0], s)
    // the track changes exactly when the sample is taken in
    ensures r != track <==> TakesIn(track, s)
    ensures TakesIn(track, s) ==> r[0] == s && r[1..] <= track && |r| == Min(|track| + 1, MaxTrack)
    ensures |track| <= MaxTrack ==> |r| <= MaxTrack
  {
    if TakesIn(track, s) then Truncate([s] + track) else track
  }

  /** Offers the samples one after another, oldest first. */
  function AppendAll(track: seq<Sample>, ss: seq<Sample>): seq<Sample>
    decreases |ss|
  {
    if |ss| == 0 then track else AppendAll(Append(track, ss[0]), ss[1..])
  }

  function Reverse(ss: seq<Sample>): (r: seq<Sample>)
    ensures |r| == |ss|
  {
    if |ss| == 0 then [] else Reverse(ss[1..]) + [ss[0]]
  }

  /** Each sample moves with respect to the one before it. */
  predicate NeighboursDiffer(ss: seq<Sample>) {
    forall i :: 0 < i < |ss| ==> Differs(ss[i - 1], ss[i])
  }

  lemma TruncateOfConcat(a: seq<Sample>, b: seq<Sample>)
    ensures Truncate(a + Truncate(b)) == Truncate(a + b)
  {
    if |b| > MaxTrack {
      var x, y := Truncate(a + Truncate(b)), Truncate(a + b);
      assert |x| == |y| == MaxTrack;
      forall i | 0 <= i < MaxTrack ensures x[i] == y[i] {
        if i < |a| {
          assert x[i] == a[i] == y[i];
        } else {
          assert x[i] == b[i - |a|] == y[i];
        }
      }
    }
  }

  /** Offering samples that each move keeps them all, newest first, up to the bound,
      on top of a bounded track whose head the first sample moves away from. */
  lemma {:induction false} AppendAllMoving(track: seq<Sample>, ss: seq<Sample>)
    requires |track| <= MaxTrack
    requires NeighboursDiffer(ss)
    requires |ss| > 0 ==> TakesIn(track, ss[0])
    ensures AppendAll(track, ss) == Truncate(Reverse(ss) + track)
    decreases |ss|
  {
    if |ss| == 0 {
      assert Reverse(ss) + track == track;
    } else {
      var t1 := Append(track, ss[0]);
      assert t1 == Truncate([ss[0]] + track);
      var rest := ss[1..];
      assert NeighboursDiffer(rest) by {
        forall i | 0 < i < |rest| ensures Differs(rest[i - 1], rest[i]) {
          assert rest[i - 1] == ss[i] && rest[i] == ss[i + 1];
        }
      }
      if |rest| > 0 {
        assert rest[0] == ss[1];
        assert Differs(ss[0], ss[1]);
      }
      AppendAllMoving(t1, rest);
      TruncateOfConcat(Reverse(rest), [ss[0]] + track);
      assert Reverse(ss) + track == Reverse(rest) + ([ss[0]] + track);
    }
  }

  /** Starting from an empty track, N moving samples leave min(N, MaxTrack) of them,
      newest first. */
  lemma MovingSamplesFromEmpty(ss: seq<Sample>)
    requires NeighboursDiffer(ss)
    ensures AppendAll([], ss) == Truncate(Reverse(ss))
    ensures |AppendAll([], ss)| == Min(|ss|, MaxTrack)
    ensures |ss| > 0 ==> AppendAll([], ss)[0] == ss[|ss| - 1]
  {
    AppendAllMoving([], ss);
    assert Reverse(ss) + [] == Reverse(ss);
    if |ss| > 0 {
      assert Reverse(ss)[0] == ss[|ss| - 1] by {
        ReverseHead(ss);
      }
    }
  }

  lemma {:induction false} ReverseHead(ss: seq<Sample>)
    requires |ss| > 0
    ensures Reverse(ss)[0] == ss[|ss| - 1]
    decreases |ss|
  {
    if |ss| > 1 {
      ReverseHead(ss[1..]);
      assert ss[1..][|ss| - 2] == ss[|ss| - 1];
    }
  }
}

=== FILE: types.dfy ===
/** The data model of the aircraft scanner: position samples, aircraft records,
    analyzer verdicts, loitering events and the two stores the scanner owns.

    Kinematic fields are compared only for equality, so they are integers here;
    floating-point semantics are not part of the model. */
module Types {

  /** The airframe code; it keys both the aircraft registry and the event store. */
  type Icao = string

  datatype Option<T> = None | Some(value: T)

  /** One position report. `timestamp` is in epoch seconds. */
  datatype Sample = Sample(
    latitude: int,
    longitude: int,
    altitude: int,
    speed: int,
    heading: int,
    verticalRate: int,
    timestamp: int)

  /** One raw report from the position source, reduced to what the scanner reads. */
  datatype Report = Report(icao: Icao, callsign: Option<string>, sample: Sample)

  /** A tracked aircraft; `track` is newest-first. */
  datatype Aircraft = Aircraft(
    icao: Icao,
    callsign: Option<string>,
    isMonitored: bool,
    notMonitoredReason: Option<string>,
    isLoitering: bool,
    track: seq<Sample>)

  /** The classification the external analyzer returns for one aircraft. */
  datatype Analysis = Analysis(isMonitored: bool, notMonitoredReason: Option<string>, isLoitering: bool)

  datatype Position = Position(latitude: int, longitude: int)

  /** The kinematic snapshot a loitering event keeps of its aircraft. */
  datatype AircraftState = AircraftState(
    altitude: int,
    speed: int,
    heading: int,
    verticalRate: int,
    position: Position)

  /** A correlated loitering event; `firstDetected` and `lastUpdated` are epoch milliseconds. */
  datatype LoiteringEvent = LoiteringEvent(
    id: Icao,
    icao: Icao,
    callsign: Option<string>,
    firstDetected: int,
    lastUpdated: int,
    detectionCount: int,
    intersectionPoints: seq<Position>,
    aircraftState: AircraftState,
    track: seq<Sample>)

  /** The scanner's whole mutable state: the aircraft registry and the event store. */
  datatype Store = Store(aircraft: map<Icao, Aircraft>, events: map<Icao, LoiteringEvent>)

  /** The maximum number of samples a track keeps. */
  const MaxTrack: nat := 50

  /** Five minutes, in milliseconds. */
  const InactivityThresholdMs: int := 5 * 60 * 1000

  const EmptyStore: Store := Store(map[], map[])

  function Min(a: int, b: int): int { if a <= b then a else b }

  /** Every event is stored under its own id, and that id is its aircraft's code. */
  ghost predicate WellKeyed(events: map<Icao, LoiteringEvent>) {
    forall k :: k in events ==> events[k].id == k && events[k].icao == k
  }

  /** The invariant the scanner keeps between operations: records sit under their
      own code, tracks are bounded, events are well keyed, no event outlives
      its aircraft, and every aircraft currently flagged loitering has an event. */
  ghost predicate Valid(st: Store) {
    && (forall k :: k in st.aircraft ==> st.aircraft[k].icao == k && |st.aircraft[k].track| <= MaxTrack)
    && WellKeyed(st.events)
    && st.events.Keys <= st.aircraft.Keys
    && (forall k :: k in st.aircraft && st.aircraft[k].isLoitering ==> k in st.events)
  }
}
